=== FILE: README.md ===
# Valentine letter offline worker — Dafny model

This project models the offline-caching service worker of the "valentine
letter" page (`sw.js`). The worker intercepts the page's requests, answers them
from the origin's CacheStorage or the network, and keeps that storage
consistent across versions. The model treats it as a small state machine over
a **registry**: the named caches in creation order, each mapping a GET
request's URL to a stored response snapshot. Every event handler is a pure
function from the registry (plus the network outcomes it would see, passed in
as parameters) to a reply, the registry after all its writes, and the trace of
host effects it issues.

Modules, one file each:

- `Wrappers` (`wrappers.dfy`): `Option`.
- `Seqs` (`seqs.dfy`): duplicate-freedom, removal of a value, and the substring
  scan behind `String.prototype.includes`, proved equal to "occurs at some index".
- `Host` (`host.dfy`): requests, response snapshots, fetch outcomes, host effects
  and the effect traces of fetching or deleting several in turn.
- `CacheStorage` (`cache_storage.dfy`): the registry and the Cache API calls the
  worker makes (`caches.open`, `put`, `caches.delete`, `caches.match`,
  `addAll`). `caches.match` is proved to answer with the entry of the
  earliest-created cache that holds the URL. `addAll` is all-or-nothing. It
  rejects on a network error, an `error`-typed response, a status outside
  200–299, a 206 response, or a repeated URL. These are the rules of the Cache
  `addAll` algorithm in the W3C Service Workers specification.
- `Config` (`config.dfy`): `CACHE_NAME`, `RUNTIME_CACHE`, `PRECACHE_ASSETS`,
  the excluded protocols and font origins.
- `Outcomes` (`outcomes.dfy`): what a handler returns: the reply to a fetch
  event, the registry afterwards and the host effects issued.
- `Router` (`router.dfy`): the fetch listener's classification.
- `Lifecycle` (`lifecycle.dfy`): install and activate.
- `Strategies` (`strategies.dfy`): font, network-first and cache-first, and
  `fetchAndCache`.
- `FetchHandler` (`fetch_handler.dfy`): dispatch, and properties of successive
  fetch events.
- `Messages` (`messages.dfy`): `SKIP_WAITING`, `CACHE_URLS`, `CLEAR_CACHE`.

Modelling choices:

- A background write is modelled as already applied in the post-state. This
  covers the un-awaited `cache.put` and `fetchAndCache`.
- `caches.open` creates a missing cache, empty and last in creation order. So
  a font miss creates the runtime cache even when nothing is stored. A failed
  install likewise creates the precache `CACHE_NAME` (sw.js:28). A
  `CACHE_URLS` message creates the runtime cache even when its `addAll` fails
  (sw.js:202). The model keeps all three.
- `request.headers.get('accept')` is null when the header is absent. Calling
  `.includes` on it then throws before `respondWith` is reached. The model
  returns the `ListenerThrew` reply for it. The host then handles the request as
  if it had not been intercepted.
- URLs are taken as already resolved. `"./index.html"` and the manifest entries
  stand for the URLs they resolve to under the worker's scope.
- `skipWaiting()`, `clients.claim()`, `postMessage` and every network fetch
  appear as entries of the effect trace. The trace gives their order and number.

Behaviour worth noting:

- A failed precache does not abort the install. The `.catch` in the install
  handler swallows the error. The install completes without `skipWaiting()`,
  and the precache gains no entries. `Lifecycle.FailedInstallThenActivate`
  shows the consequence: a later activation still deletes the previous
  version's caches.
- The background refresh of a cache-first hit checks only `status === 200`.
  It does not check the response type. Only the miss path rejects
  `error`-typed responses.
- The font strategy never revalidates. A runtime-cache hit is returned with no
  network call.
- A precache is left holding exactly the manifest URLs only if it did not exist
  before the install. Entries written earlier, for example by network-first,
  stay.

## Model

| member | source | states |
|---|---|---|
| `Seqs.IncludesIff` | sw.js:109 | the `includes` scan succeeds exactly when the substring occurs at some index of the string |
| `CacheStorage.Open` | sw.js:87-88 | opening a cache creates it, empty and last in creation order, when absent; it keeps every existing entry and changes nothing when the cache exists |
| `CacheStorage.Put` | sw.js:97-99 | `cache.put` writes exactly that entry and changes no other entry or cache; when the cache is absent it is created, last in creation order, and otherwise the order is kept |
| `CacheStorage.Delete` | sw.js:57 | `caches.delete` removes exactly that cache, leaves every other cache's contents unchanged and keeps the order of the others |
| `CacheStorage.MatchIsFirst` | sw.js:123-125 | `caches.match` answers nothing exactly when no cache holds the URL; otherwise it answers the entry of the earliest-created cache holding it |
| `CacheStorage.MatchAfterPut` | sw.js:114-125 | after a write into a cache, `caches.match` returns the written response when no cache ordered before it holds the URL |
| `CacheStorage.MatchSoleHolder` | sw.js:123-125 | when a single cache holds the URL, `caches.match` returns that cache's entry |
| `CacheStorage.AddAll` | sw.js:31 | `addAll` fetches every URL once, in order; when all succeed it stores every response and keeps the other entries; otherwise the registry is unchanged; other caches are never touched and the creation order never changes |
| `Config.PrecacheAssetsDistinct` | sw.js:8-21 | the manifest has twelve distinct URLs including the root document, and the two cache names differ |
| `Router.Classify` | sw.js:73-109 | non-GET and excluded-protocol requests are not intercepted; otherwise the font origins win; then a missing `accept` header throws; then HTML-accepting requests go network-first; all others go cache-first (each an if-and-only-if) |
| `Router.RouteIgnoresUrlAndDestination` | sw.js:73-109 | the route does not depend on the URL's path or query, nor on the destination; only the method, the URL's protocol and origin, and `accept` decide |
| `Lifecycle.Precache` | sw.js:27-40 | the install's work for a manifest: its effects are exactly one fetch per URL, in order, followed by one `skipWaiting()` only when `addAll` succeeds; then every URL is stored; on failure no entry changes; caches other than the precache are untouched |
| `Lifecycle.PrecacheIdempotent` | sw.js:27-36 | precaching twice with the same network outcomes gives the registry of precaching once |
| `Lifecycle.Install` | sw.js:24-41 | the effects are exactly the twelve manifest fetches, then one `skipWaiting()` only when all succeed; when all succeed, the precache holds every manifest URL with its fetched response and gains nothing else; on failure no entry changes |
| `Lifecycle.InstallIdempotent` | sw.js:27-36 | installing twice with the same network outcomes gives the registry of installing once |
| `Lifecycle.PrecacheKeysStable` | sw.js:27-36 | two successful precaches leave the same URL set; from no precache that set is exactly the manifest |
| `Lifecycle.InstallKeysStable` | sw.js:27-36 | two successful installs, with any responses, leave the same precache URL set; from no precache it is exactly the twelve manifest URLs |
| `Lifecycle.Activate` | sw.js:44-66 | afterwards only the precache and the runtime cache can remain; each one is present iff it was before and keeps exactly its contents, and the survivors keep their relative creation order; exactly the other caches are deleted; `clients.claim()` is the last effect, after every deletion |
| `Lifecycle.ActivateIdempotent` | sw.js:48-60 | a second activation changes nothing in the registry |
| `Lifecycle.FailedInstallThenActivate` | sw.js:27-60 | a failed install followed by activation leaves no cache of another version; the precache keeps exactly its earlier contents, so starting without a precache it is empty; the runtime cache keeps its contents |
| `Lifecycle.InstalledThenActivated` | sw.js:27-60 | a successful install followed by activation leaves every manifest URL in the precache |
| `Strategies.FontStrategy` | sw.js:86-104 | a runtime-cache hit is returned with no fetch and no registry change; on a miss, one fetch; a network error propagates; any response is returned; only a status-200 response is written, into the runtime cache only |
| `Strategies.NetworkFirst` | sw.js:110-128 | one fetch; a live response is returned whatever its status; only status 200 is written, into the precache only; offline, the reply is the first cached entry for the URL, else the first for the root document, else a failed navigation, with no write |
| `Strategies.FetchAndCache` | sw.js:178-191 | the background refresh writes only a status-200 response, whatever its type, into the runtime cache at the request's URL; anything else, a failure included, changes nothing |
| `Strategies.OfflinePlaceholderIsSvg` | sw.js:163-168 | the offline image placeholder has content type `image/svg+xml` and a body containing "Offline" |
| `Strategies.CacheFirst` | sw.js:133-174 | exactly one fetch either way; a hit returns the earliest cached entry unchanged, and the refresh writes only a status-200 response into the runtime cache; a miss returns the network response and stores it in the runtime cache only if status is 200 and type is not `error`; a failed miss yields the placeholder for images and a network error otherwise |
| `FetchHandler.HandleFetch` | sw.js:69-175 | a non-GET request passes through with no effect; a passed-through request or one whose listener throws leaves the registry unchanged and issues no fetch; font, network-first and cache-first routes are answered by exactly that strategy; at most one fetch per event |
| `FetchHandler.FontRepeatServedFromCache` | sw.js:87-101 | after a font request answered with status 200, the same request is answered with the same response, no fetch and no registry change |
| `FetchHandler.HtmlOnlineThenOffline` | sw.js:111-127 | an HTML request answered online with status 200 is answered again offline; the answer is the same response whenever no cache ordered before the precache holds the URL |
| `FetchHandler.ServedOfflineWhenCached` | sw.js:121-139 | offline, a network-first or cache-first request whose URL some cache holds gets a response and no registry change |
| `FetchHandler.OfflineReadyAfterInstall` | sw.js:24-139 | after a successful install and activation, every manifest URL routed network-first or cache-first is answered offline |
| `Messages.ClearCache` | sw.js:207-223 | the registry ends empty; every cache is deleted, in registry order, before any notification; each client gets as many `CACHE_CLEARED` messages as it appears in the host's client list |
| `Messages.ClearCacheNotifiesEachClientOnce` | sw.js:216-222 | with distinct clients, each connected client receives exactly one `CACHE_CLEARED` |
| `Messages.HandleMessage` | sw.js:194-225 | no payload does nothing; `SKIP_WAITING` only calls `skipWaiting()`; `CACHE_URLS` touches only the runtime cache: with no `urls` it adds nothing, otherwise it stores all URLs or none; `CLEAR_CACHE` is exactly `ClearCache`: every cache deleted, then each client notified; other types do nothing |

## Left out

- `script.js`: DOM manipulation, timers, animation, `Math.random` and
  floating-point trigonometry. Worker registration and the periodic `update()`
  are browser plumbing.
- The push handler (sw.js:238-253). It needs the clock (`Date.now()`) and the
  notification API. Without a payload, its body text defaults to
  "New Valentine message!".
- The notification-click handler (sw.js:256-262). It only calls host window
  APIs.
- The sync handler (sw.js:228-235). It resolves immediately and does no work.
- Concurrency. Overlapping fetch handlers and the order of detached writes are
  not modelled. Each handler is one atomic transition.
- Response bodies as streams, and `clone()`. A response is an opaque record of
  status, type, content type and body text.
- URL parsing. Protocol, origin, method, `accept` and destination are given
  request fields.
- `console` logging.
- The host's reaction to `skipWaiting()` and `clients.claim()`. These appear
  only as effect entries.
- `CacheStorage.AddAll`: the rejection of responses with a `Vary: *` header is
  not modelled, because response headers other than `Content-Type` are not
  modelled. `addAll`'s scheme check is not modelled either, because URLs are
  abstract strings.
- Failures of the Cache API calls themselves (`open`, `put`, `delete`, `keys`,
  for example a quota error) are not modelled: every such call succeeds.
- `Lifecycle.Activate`: in `sw.js` a rejected `caches.delete` rejects the
  `Promise.all` and skips `clients.claim()`; the model's activation always ends
  with the claim, because Cache API failures are not modelled.
- `Messages.ClearCache`: in `sw.js` a rejected `caches.delete` skips every
  `CACHE_CLEARED` message; the model always notifies, because Cache API
  failures are not modelled.
- `Messages.HandleMessage`: a `urls` field that is present but not an array is
  not modelled. It would make `addAll` throw.

=== FILE: cache_storage.dfy ===
/** The origin's CacheStorage as the worker uses it: named caches kept in creation
    order, each mapping a GET request's URL to a stored response. Every write
    overwrites a whole entry. */
module CacheStorage {
  import opened Wrappers
  import opened Seqs
  import opened Host

  type CacheName = string

  /** One named cache: request URL to stored response. */
  type Store = map<string, Response>

  /** `names` lists the caches in creation order; `stores` holds their contents. */
  datatype Registry = Registry(names: seq<CacheName>, stores: map<CacheName, Store>) {
    ghost predicate Valid() {
      && NoDup(names)
      && forall n :: n in stores <==> n in names
    }
  }

  const EmptyRegistry := Registry([], map[])

  /** The contents of cache `name`, empty when it does not exist. */
  function StoreOf(reg: Registry, name: CacheName): Store {
    if name in reg.stores then reg.stores[name] else map[]
  }

  /** Some cache holds an entry for `url`. */
  ghost predicate Holds(reg: Registry, url: string) {
    exists n :: n in reg.stores && url in reg.stores[n]
  }

  /** `r` is the entry for `url` in the earliest-created cache that has one. */
  ghost predicate IsFirstCached(reg: Registry, url: string, r: Response) {
    exists i :: 0 <= i < |reg.names| && reg.names[i] in reg.stores
      && url in reg.stores[reg.names[i]] && reg.stores[reg.names[i]][url] == r
      && forall j :: 0 <= j < i ==> reg.names[j] in reg.stores && url !in reg.stores[reg.names[j]]
  }

  /** No entry changed: `reg'` has the caches of `reg` with the same contents
      and in the same order, plus possibly new empty ones created after them. */
  ghost predicate SameEntries(reg: Registry, reg': Registry) {
    && reg.stores.Keys <= reg'.stores.Keys
    && (forall n :: n in reg'.stores ==> reg'.stores[n] == StoreOf(reg, n))
    && |reg.names| <= |reg'.names| && reg'.names[..|reg.names|] == reg.names
  }

  /** `reg'` is `reg` with exactly the entry `url` of cache `name` set to `resp`;
      the cache is created last in creation order if it was absent. */
  ghost predicate WroteOne(reg: Registry, reg': Registry, name: CacheName, url: string, resp: Response) {
    && reg'.stores.Keys == reg.stores.Keys + {name}
    && reg'.stores[name] == StoreOf(reg, name)[url := resp]
    && (forall n :: n in reg.stores && n != name ==> reg'.stores[n] == reg.stores[n])
    && reg'.names == (if name in reg.stores then reg.names else reg.names + [name])
  }

  /** `caches.open(name)`: creates the cache, empty and last in order, when absent. */
  function Open(reg: Registry, name: CacheName): (r: Registry)
    requires reg.Valid()
    ensures r.Valid()
    ensures r.stores.Keys == reg.stores.Keys + {name}
    ensures SameEntries(reg, r)
    ensures name in reg.stores ==> r == reg
    ensures name !in reg.stores ==> r.names == reg.names + [name]
  {
    if name in reg.stores then reg
    else
      NoDupAppend(reg.names, name);
      Registry(reg.names + [name], reg.stores[name := map[]])
  }

  /** `cache.put(request, response)` on the cache named `name`, opened first. */
  function Put(reg: Registry, name: CacheName, url: string, resp: Response): (r: Registry)
    requires reg.Valid()
    ensures r.Valid()
    ensures WroteOne(reg, r, name, url, resp)
    ensures r.names == if name in reg.stores then reg.names else reg.names + [name]
  {
    var o := Open(reg, name);
    Registry(o.names, o.stores[name := o.stores[name][url := resp]])
  }

  /** `caches.delete(name)`. */
  function Delete(reg: Registry, name: CacheName): (r: Registry)
    requires reg.Valid()
    ensures r.Valid()
    ensures r.stores.Keys == reg.stores.Keys - {name}
    ensures forall n :: n in r.stores ==> r.stores[n] == reg.stores[n]
    ensures r.names == Without(reg.names, name)
  {
    Registry(Without(reg.names, name), reg.stores - {name})
  }

  /** `caches.delete` for each name in turn. */
  function DeleteEach(reg: Registry, ns: seq<CacheName>): (r: Registry)
    requires reg.Valid()
    ensures r.Valid()
    ensures forall n :: n in r.stores <==> n in reg.stores && n !in ns
    ensures forall n :: n in r.stores ==> r.stores[n] == reg.stores[n]
    ensures r.names == WithoutAll(reg.names, ns)
    decreases |ns|
  {
    if |ns| == 0 then
      WithoutNone(reg.names);
      reg
    else
      WithoutThenWithoutAll(reg.names, ns[0], ns[1..]);
      assert [ns[0]] + ns[1..] == ns;
      DeleteEach(Delete(reg, ns[0]), ns[1..])
  }

  /** `caches.match(url)`: searches the caches in creation order. */
  function Match(reg: Registry, url: string): Option<Response>
    requires reg.Valid()
  {
    FirstMatch(reg.names, reg.stores, url)
  }

  function FirstMatch(names: seq<CacheName>, stores: map<CacheName, Store>, url: string): Option<Response>
    requires forall n :: n in names ==> n in stores
    decreases |names|
  {
    if |names| == 0 then None
    else if url in stores[names[0]] then Some(stores[names[0]][url])
    else FirstMatch(names[1..], stores, url)
  }

  lemma {:induction false} FirstMatchSpec(names: seq<CacheName>, stores: map<CacheName, Store>, url: string)
    requires forall n :: n in names ==> n in stores
    ensures FirstMatch(names, stores, url).None? <==>
              forall i :: 0 <= i < |names| ==> url !in stores[names[i]]
    ensures FirstMatch(names, stores, url).Some? ==>
              exists i :: 0 <= i < |names| && url in stores[names[i]]
                && stores[names[i]][url] == FirstMatch(names, stores, url).value
                && forall j :: 0 <= j < i ==> url !in stores[names[j]]
    decreases |names|
  {
    if |names| > 0 && url !in stores[names[0]] {
      var rest := names[1..];
      FirstMatchSpec(rest, stores, url);
      assert forall k :: 0 <= k < |rest| ==> rest[k] == names[k + 1];
      if FirstMatch(rest, stores, url).Some? {
        var k :| 0 <= k < |rest| && url in stores[rest[k]]
          && stores[rest[k]][url] == FirstMatch(rest, stores, url).value
          && forall j :: 0 <= j < k ==> url !in stores[rest[j]];
        assert forall j :: 0 <= j < k + 1 ==> url !in stores[names[j]] by {
          forall j | 0 <= j < k + 1 ensures url !in stores[names[j]] {
            if j > 0 { assert names[j] == rest[j - 1]; }
          }
        }
      } else {
        forall i | 0 <= i < |names| ensures url !in stores[names[i]] {
          if i > 0 { assert names[i] == rest[i - 1]; }
        }
      }
    }
  }

  /** The search stops at the first cache that holds `url`. */
  lemma {:induction false} FirstMatchAt(names: seq<CacheName>, stores: map<CacheName, Store>, url: string, k: nat)
    requires forall n :: n in names ==> n in stores
    requires k < |names| && url in stores[names[k]]
    requires forall j :: 0 <= j < k ==> url !in stores[names[j]]
    ensures FirstMatch(names, stores, url) == Some(stores[names[k]][url])
    decreases k
  {
    if k > 0 {
      assert url !in stores[names[0]];
      FirstMatchAt(names[1..], stores, url, k - 1);
    }
  }

  /** `caches.match` answers with the earliest-created cache's entry for `url`,
      and with nothing exactly when no cache holds `url`. */
  lemma MatchIsFirst(reg: Registry, url: string)
    requires reg.Valid()
    ensures Match(reg, url).None? <==> !Holds(reg, url)
    ensures forall r :: Match(reg, url) == Some(r) <==> IsFirstCached(reg, url, r)
  {
    FirstMatchSpec(reg.names, reg.stores, url);
    if Match(reg, url).None? {
      forall n | n in reg.stores ensures url !in reg.stores[n] {
        var i :| 0 <= i < |reg.names| && reg.names[i] == n;
      }
    } else {
      var r := Match(reg, url).value;
      assert IsFirstCached(reg, url, r);
      forall r' | IsFirstCached(reg, url, r') ensures r' == r {
        var i :| 0 <= i < |reg.names| && url in reg.stores[reg.names[i]]
          && reg.stores[reg.names[i]][url] == r
          && forall j :: 0 <= j < i ==> url !in reg.stores[reg.names[j]];
        var i' :| 0 <= i' < |reg.names| && reg.names[i'] in reg.stores
          && url in reg.stores[reg.names[i']] && reg.stores[reg.names[i']][url] == r'
          && forall j :: 0 <= j < i' ==> reg.names[j] in reg.stores && url !in reg.stores[reg.names[j]];
        assert i == i';
      }
    }
  }

  /** When one cache alone holds `url`, `caches.match` returns that cache's entry. */
  lemma MatchSoleHolder(reg: Registry, url: string, name: CacheName)
    requires reg.Valid()
    requires name in reg.stores && url in reg.stores[name]
    requires forall n :: n in reg.stores && n != name ==> url !in reg.stores[n]
    ensures Match(reg, url) == Some(reg.stores[name][url])
  {
    MatchIsFirst(reg, url);
    var r := Match(reg, url).value;
    var i :| 0 <= i < |reg.names| && reg.names[i] in reg.stores
      && url in reg.stores[reg.names[i]] && reg.stores[reg.names[i]][url] == r
      && forall j :: 0 <= j < i ==> reg.names[j] in reg.stores && url !in reg.stores[reg.names[j]];
  }

  /** No cache created before `name` holds `url`; when `name` does not exist,
      no cache at all does. */
  ghost predicate NoEarlierHolder(reg: Registry, name: CacheName, url: string) {
    forall i :: 0 <= i < |reg.names| && name !in reg.names[..i + 1] && reg.names[i] in reg.stores ==>
      url !in reg.stores[reg.names[i]]
  }

  /** Caches listed before `name`'s first position in `reg'`, which extends the
      order of `reg` and keeps the contents of its other caches, do not hold `url`. */
  lemma NoHolderBefore(reg: Registry, reg': Registry, name: CacheName, url: string, k: nat)
    requires reg.Valid() && NoEarlierHolder(reg, name, url)
    requires reg'.names == reg.names || reg'.names == reg.names + [name]
    requires k < |reg'.names| && reg'.names[k] == name && name !in reg'.names[..k]
    requires forall n :: n in reg.stores && n != name ==> n in reg'.stores && reg'.stores[n] == reg.stores[n]
    ensures forall j :: 0 <= j < k ==> reg'.names[j] in reg'.stores && url !in reg'.stores[reg'.names[j]]
  {
    forall j | 0 <= j < k ensures reg'.names[j] in reg'.stores && url !in reg'.stores[reg'.names[j]] {
      assert reg'.names[j] in reg'.names[..k];
      assert j < |reg.names| && reg'.names[j] == reg.names[j];
      assert reg.names[..j + 1] == reg'.names[..j + 1];
      assert name !in reg.names[..j + 1] by {
        assert forall m :: m in reg'.names[..j + 1] ==> m in reg'.names[..k];
      }
    }
  }

  /** After `url` is written into cache `name`, `caches.match(url)` returns the
      written response, provided no cache ordered before `name` holds `url`. */
  lemma MatchAfterPut(reg: Registry, name: CacheName, url: string, resp: Response)
    requires reg.Valid() && NoEarlierHolder(reg, name, url)
    ensures Match(Put(reg, name, url, resp), url) == Some(resp)
  {
    var r := Put(reg, name, url, resp);
    assert name in r.names;
    var k := IndexOf(r.names, name);
    NoHolderBefore(reg, r, name, url, k);
    FirstMatchAt(r.names, r.stores, url, k);
  }

  /** `cache.addAll` accepts a response that is not an error, has an ok status
      (200 to 299) and is not a partial (206) response. */
  predicate Storable(resp: Response) {
    resp.kind != Error && 200 <= resp.status <= 299 && resp.status != 206
  }

  /** `cache.addAll(urls)` succeeds: no URL repeats, every fetch resolves and
      every response is storable. */
  predicate AddAllSucceeds(urls: seq<string>, net: Network) {
    && NoDup(urls)
    && forall i :: 0 <= i < |urls| ==> net(urls[i]).Fetched? && Storable(net(urls[i]).response)
  }

  /** Every URL's fetch resolves to a storable response. */
  predicate AllStorable(urls: seq<string>, net: Network) {
    forall u :: u in urls ==> net(u).Fetched? && Storable(net(u).response)
  }

  /** For duplicate-free URLs, `addAll` succeeds exactly when every URL's fetch
      resolves to a storable response. */
  lemma AddAllSucceedsDistinct(urls: seq<string>, net: Network)
    requires NoDup(urls)
    ensures AddAllSucceeds(urls, net) <==> AllStorable(urls, net)
  {
  }

  /** Writes the fetched response of every URL into `store`. */
  function PutEach(store: Store, urls: seq<string>, net: Network): (r: Store)
    requires forall i :: 0 <= i < |urls| ==> net(urls[i]).Fetched?
    ensures forall u :: u in r <==> u in store || u in urls
    ensures forall u :: u in urls ==> r[u] == net(u).response
    ensures forall u :: u in store && u !in urls ==> r[u] == store[u]
    decreases |urls|
  {
    if |urls| == 0 then store
    else PutEach(store[urls[0] := net(urls[0]).response], urls[1..], net)
  }

  /** Writing the same fetched responses again changes nothing. */
  lemma PutEachIdempotent(store: Store, urls: seq<string>, net: Network)
    requires forall i :: 0 <= i < |urls| ==> net(urls[i]).Fetched?
    ensures PutEach(PutEach(store, urls, net), urls, net) == PutEach(store, urls, net)
  {
  }

  /** The outcome of a batch write: whether it succeeded, the registry after it,
      and the fetches it issued. */
  datatype Batch = Batch(ok: bool, reg: Registry, effects: seq<Effect>)

  /** `cache.addAll(urls)` on the (already open) cache `name`: fetches every URL,
      then stores all responses or, if any fails, none. */
  function AddAll(reg: Registry, name: CacheName, urls: seq<string>, net: Network): (b: Batch)
    requires reg.Valid() && name in reg.stores
    ensures b.reg.Valid()
    ensures b.effects == FetchEach(urls)
    ensures b.ok <==> AddAllSucceeds(urls, net)
    ensures !b.ok ==> b.reg == reg
    ensures b.reg.stores.Keys == reg.stores.Keys
    ensures b.reg.names == reg.names
    ensures forall n :: n in reg.stores && n != name ==> b.reg.stores[n] == reg.stores[n]
    ensures forall u :: u in b.reg.stores[name] <==> u in reg.stores[name] || (b.ok && u in urls)
    ensures b.ok ==> forall u :: u in urls ==> b.reg.stores[name][u] == net(u).response
    ensures forall u :: u in reg.stores[name] && u !in urls ==> b.reg.stores[name][u] == reg.stores[name][u]
  {
    if AddAllSucceeds(urls, net) then
      Batch(true, Registry(reg.names, reg.stores[name := PutEach(reg.stores[name], urls, net)]), FetchEach(urls))
    else
      Batch(false, reg, FetchEach(urls))
  }
}

=== FILE: config.dfy ===
/** The worker's fixed names: cache names, the precache manifest, and the
    protocols and origins the router checks. */
module Config {
  import opened Seqs
  import opened CacheStorage

  /** `CACHE_NAME`: the versioned precache. */
  const PrecacheName: CacheName := "valentine-letter-v1"

  /** `RUNTIME_CACHE`: the runtime cache. */
  const RuntimeName: CacheName := "valentine-runtime-v1"

  /** `PRECACHE_ASSETS`: the app shell written into the precache on install. */
  const PrecacheAssets: seq<string> := [
    "./",
    "./index.html",
    "./style.css",
    "./script.js",
    "./manifest.json",
    "./assets/img/envelope.png",
    "./assets/img/heart-bg.jpg",
    "./assets/img/window.png",
    "./assets/img/cat_heart.gif",
    "./assets/img/cat_dance.gif",
    "./assets/img/yes.png",
    "./assets/img/no.png"
  ]

  /** The root document, the last offline fallback for HTML requests. */
  const IndexUrl: string := "./index.html"

  /** Protocols whose requests are never intercepted. */
  const ExcludedProtocols: set<string> := {"chrome-extension:", "devtools:"}

  /** Origins served by the font strategy. */
  const FontOrigins: set<string> := {"https://fonts.googleapis.com", "https://fonts.gstatic.com"}

  /** The manifest has twelve distinct URLs, the root document among them,
      and the two cache names differ. */
  lemma PrecacheAssetsDistinct()
    ensures |PrecacheAssets| == 12
    ensures NoDup(PrecacheAssets)
    ensures IndexUrl in PrecacheAssets
    ensures PrecacheName != RuntimeName
  {
    var s := PrecacheAssets;
    assert s[1] == IndexUrl;
    forall i, j | 0 <= i < j < |s| ensures s[i] != s[j] {
      if |s[i]| == |s[j]| {
        assert (i, j) in {(2, 3), (5, 6), (8, 9)};
        assert s[i][3] != s[j][3] || s[i][13] != s[j][13] || s[i][17] != s[j][17];
      }
    }
    DistinctNoDup(s);
  }
}

=== FILE: fetch_handler.dfy ===
/** The fetch listener: the router's decision dispatched to a strategy, and
    properties of successive fetch events. */
module FetchHandler {
  import opened Host
  import opened CacheStorage
  import opened Config
  import opened Outcomes
  import opened Router
  import opened Strategies
  import opened Lifecycle

  /** One fetch event. A request the router lets through, or one on which the
      listener throws, reaches no cache and issues no fetch of the worker's own. */
  function HandleFetch(reg: Registry, req: Request, net: FetchResult): (s: FetchStep)
    requires reg.Valid()
    ensures s.reg.Valid()
    ensures req.verb != "GET" ==> s == FetchStep(Passthrough, reg, [])
    ensures s.reply == Passthrough <==> Classify(req) == NoIntercept
    ensures s.reply == ListenerThrew <==> Classify(req) == AcceptMissing
    ensures s.reply in {Passthrough, ListenerThrew} ==> s.reg == reg && s.effects == []
    ensures |s.effects| <= 1
    ensures Classify(req) == FontCache ==> s == FontStrategy(reg, req, net)
    ensures Classify(req) == NetworkFirstRoute ==> s == NetworkFirst(reg, req, net)
    ensures Classify(req) == CacheFirstRoute ==> s == CacheFirst(reg, req, net)
  {
    match Classify(req)
    case NoIntercept => FetchStep(Passthrough, reg, [])
    case AcceptMissing => FetchStep(ListenerThrew, reg, [])
    case FontCache => FontStrategy(reg, req, net)
    case NetworkFirstRoute => NetworkFirst(reg, req, net)
    case CacheFirstRoute => CacheFirst(reg, req, net)
  }

  /** A font request answered with a status-200 response is answered again from
      the runtime cache, with no network call and no registry change. */
  lemma FontRepeatServedFromCache(reg: Registry, req: Request, net1: FetchResult, net2: FetchResult)
    requires reg.Valid() && Classify(req) == FontCache
    requires HandleFetch(reg, req, net1).reply.Respond?
    requires HandleFetch(reg, req, net1).reply.response.status == 200
    ensures var first := HandleFetch(reg, req, net1);
            HandleFetch(first.reg, req, net2) == FetchStep(first.reply, first.reg, [])
  {
  }

  /** An HTML request answered online with a status-200 response is answered
      from a cache when the same request is made offline; the answer is that
      very response unless another cache created earlier holds the URL too. */
  lemma HtmlOnlineThenOffline(reg: Registry, req: Request, resp: Response)
    requires reg.Valid() && Classify(req) == NetworkFirstRoute && resp.status == 200
    ensures var first := HandleFetch(reg, req, Fetched(resp));
            && first.reply == Respond(resp)
            && HandleFetch(first.reg, req, NetworkError).reply.Respond?
    ensures NoEarlierHolder(reg, PrecacheName, req.url) ==>
              HandleFetch(HandleFetch(reg, req, Fetched(resp)).reg, req, NetworkError).reply == Respond(resp)
  {
    var first := HandleFetch(reg, req, Fetched(resp));
    assert PrecacheName in first.reg.stores && req.url in first.reg.stores[PrecacheName];
    if NoEarlierHolder(reg, PrecacheName, req.url) {
      MatchAfterPut(reg, PrecacheName, req.url, resp);
    }
  }

  /** Offline, a network-first or cache-first request whose URL some cache
      holds is answered with a response, and the registry is left as it was. */
  lemma ServedOfflineWhenCached(reg: Registry, req: Request)
    requires reg.Valid() && Holds(reg, req.url)
    requires Classify(req) in {NetworkFirstRoute, CacheFirstRoute}
    ensures HandleFetch(reg, req, NetworkError).reply.Respond?
    ensures HandleFetch(reg, req, NetworkError).reg == reg
  {
  }

  /** After a successful install and activation, every manifest URL requested
      through network-first or cache-first is answered from a cache even when
      the network is down. */
  lemma OfflineReadyAfterInstall(reg: Registry, net: Network, req: Request)
    requires reg.Valid() && PrecacheSucceeds(net)
    requires req.url in PrecacheAssets
    requires Classify(req) in {NetworkFirstRoute, CacheFirstRoute}
    ensures var ready := Activate(Install(reg, net).reg).reg;
            var s := HandleFetch(ready, req, NetworkError);
            s.reply.Respond? && s.reg == ready
  {
    var ready := Activate(Install(reg, net).reg).reg;
    InstalledThenActivated(reg, net);
    assert Holds(ready, req.url) by {
      assert req.url in ready.stores[PrecacheName];
    }
    ServedOfflineWhenCached(ready, req);
  }
}

=== FILE: host.dfy ===
/** What the worker sees of its host: requests, response snapshots, the outcome
    of a network fetch, and the host effects a handler triggers. */
module Host {
  import opened Wrappers

  /** The `type` attribute of a `Response`. */
  datatype ResponseType = Basic | Cors | Default | Error | Opaque | OpaqueRedirect

  /** A response snapshot: status code, type, `Content-Type` header and body text.
      Bodies are plain strings; streams and cloning are not modelled. */
  datatype Response = Response(status: int, kind: ResponseType, contentType: string, body: string)

  /** What one `fetch` yields: a response, or a rejected promise. */
  datatype FetchResult = Fetched(response: Response) | NetworkError

  /** The outcome `fetch` would have for each URL, for operations that fetch several. */
  type Network = string -> FetchResult

  /** The request fields the worker inspects. `verb` is the HTTP method; `url` is the already-resolved URL and is
      the cache key; `accept` is None when the request has no `accept` header. */
  datatype Request = Request(
    verb: string,
    url: string,
    protocol: string,
    origin: string,
    accept: Option<string>,
    destination: string)

  type ClientId = nat

  /** Host effects, in the order a handler issues them: a network fetch, a cache
      deletion, `skipWaiting()`, `clients.claim()`, or `{type: 'CACHE_CLEARED'}`
      posted to one client. */
  datatype Effect =
    | Fetch(url: string)
    | DeleteCache(name: string)
    | SkipWaiting
    | ClaimClients
    | PostCacheCleared(client: ClientId)

  /** One `Fetch` effect per URL, in order. */
  function FetchEach(urls: seq<string>): (r: seq<Effect>)
    ensures |r| == |urls|
    ensures forall i :: 0 <= i < |urls| ==> r[i] == Fetch(urls[i])
  {
    seq(|urls|, i requires 0 <= i < |urls| => Fetch(urls[i]))
  }

  /** One `DeleteCache` effect per name, in order. */
  function DeleteEffects(ns: seq<string>): (r: seq<Effect>)
    ensures |r| == |ns|
    ensures forall i :: 0 <= i < |ns| ==> r[i] == DeleteCache(ns[i])
  {
    seq(|ns|, i requires 0 <= i < |ns| => DeleteCache(ns[i]))
  }
}

=== FILE: lifecycle.dfy ===
/** The install and activate handlers: precaching the app shell and evicting
    caches of other versions. */
module Lifecycle {
  import opened Seqs
  import opened Host
  import opened CacheStorage
  import opened Config
  import opened Outcomes

  /** The install handler's work for a given manifest: open the precache,
      `addAll` the manifest into it and, only if that succeeds, call
      `skipWaiting()`. A failure is caught and swallowed: the install itself
      still completes. */
  function Precache(reg: Registry, assets: seq<string>, net: Network): (t: Transition)
    requires reg.Valid()
    ensures t.reg.Valid()
    ensures t.reg.stores.Keys == reg.stores.Keys + {PrecacheName}
    ensures forall n :: n in reg.stores && n != PrecacheName ==> t.reg.stores[n] == reg.stores[n]
    ensures t.effects == FetchEach(assets) + if AddAllSucceeds(assets, net) then [SkipWaiting] else []
    ensures SkipWaiting in t.effects <==> AddAllSucceeds(assets, net)
    ensures AddAllSucceeds(assets, net) ==>
              forall u :: u in assets ==>
                u in t.reg.stores[PrecacheName] && t.reg.stores[PrecacheName][u] == net(u).response
    ensures forall u :: u in t.reg.stores[PrecacheName] ==>
              u in StoreOf(reg, PrecacheName) || (AddAllSucceeds(assets, net) && u in assets)
    ensures forall u :: u in StoreOf(reg, PrecacheName) && u !in assets ==>
              u in t.reg.stores[PrecacheName] && t.reg.stores[PrecacheName][u] == StoreOf(reg, PrecacheName)[u]
    ensures !AddAllSucceeds(assets, net) ==> SameEntries(reg, t.reg)
  {
    var o := Open(reg, PrecacheName);
    var b := AddAll(o, PrecacheName, assets, net);
    assert SkipWaiting !in b.effects;
    Transition(b.reg, b.effects + if b.ok then [SkipWaiting] else [])
  }

  /** Precaching twice with the same network outcomes leaves the same registry
      as precaching once. */
  lemma {:induction false} PrecacheIdempotent(reg: Registry, assets: seq<string>, net: Network)
    requires reg.Valid()
    ensures Precache(Precache(reg, assets, net).reg, assets, net).reg == Precache(reg, assets, net).reg
  {
    var o := Open(reg, PrecacheName);
    var b := AddAll(o, PrecacheName, assets, net);
    assert Precache(reg, assets, net).reg == b.reg;
    assert Open(b.reg, PrecacheName) == b.reg;
    var b2 := AddAll(b.reg, PrecacheName, assets, net);
    assert Precache(b.reg, assets, net).reg == b2.reg;
    if b.ok {
      PutEachIdempotent(o.stores[PrecacheName], assets, net);
    }
  }

  /** `addAll` of the fixed manifest succeeds: every manifest URL fetched and storable. */
  predicate PrecacheSucceeds(net: Network) {
    AllStorable(PrecacheAssets, net)
  }

  /** With the manifest free of duplicates, that is exactly `addAll`'s success. */
  lemma PrecacheSucceedsIsAddAll(net: Network)
    ensures PrecacheSucceeds(net) <==> AddAllSucceeds(PrecacheAssets, net)
  {
    PrecacheAssetsDistinct();
    AddAllSucceedsDistinct(PrecacheAssets, net);
  }

  /** The install handler on the worker's own manifest. Exactly when every
      manifest fetch succeeds, the precache holds every manifest URL and
      `skipWaiting()` is called; otherwise no entry changes. */
  function Install(reg: Registry, net: Network): (t: Transition)
    requires reg.Valid()
    ensures t.reg.Valid()
    ensures t.reg.stores.Keys == reg.stores.Keys + {PrecacheName}
    ensures forall n :: n in reg.stores && n != PrecacheName ==> t.reg.stores[n] == reg.stores[n]
    ensures t.effects == FetchEach(PrecacheAssets) + if PrecacheSucceeds(net) then [SkipWaiting] else []
    ensures SkipWaiting in t.effects <==> PrecacheSucceeds(net)
    ensures PrecacheSucceeds(net) ==>
              forall u :: u in PrecacheAssets ==>
                u in t.reg.stores[PrecacheName] && t.reg.stores[PrecacheName][u] == net(u).response
    ensures PrecacheSucceeds(net) ==>
              forall u :: u in t.reg.stores[PrecacheName] ==> u in StoreOf(reg, PrecacheName) || u in PrecacheAssets
    ensures !PrecacheSucceeds(net) ==> SameEntries(reg, t.reg)
  {
    PrecacheSucceedsIsAddAll(net);
    Precache(reg, PrecacheAssets, net)
  }

  /** Installing twice with the same network outcomes leaves the same registry
      as installing once. */
  lemma InstallIdempotent(reg: Registry, net: Network)
    requires reg.Valid()
    ensures Install(Install(reg, net).reg, net).reg == Install(reg, net).reg
  {
    PrecacheIdempotent(reg, PrecacheAssets, net);
  }

  /** Two successful precaches, even with different responses, leave the
      precache holding the same URLs; starting without a precache, those are
      exactly the manifest URLs. */
  lemma PrecacheKeysStable(reg: Registry, assets: seq<string>, net1: Network, net2: Network)
    requires reg.Valid()
    requires AddAllSucceeds(assets, net1) && AddAllSucceeds(assets, net2)
    ensures Precache(Precache(reg, assets, net1).reg, assets, net2).reg.stores[PrecacheName].Keys
            == Precache(reg, assets, net1).reg.stores[PrecacheName].Keys
    ensures PrecacheName !in reg.stores ==>
              Precache(reg, assets, net1).reg.stores[PrecacheName].Keys == set u | u in assets
  {
  }

  /** Two successful installs, even with different responses, leave the
      precache holding the same URLs; starting without a precache, those are
      exactly the twelve manifest URLs. */
  lemma InstallKeysStable(reg: Registry, net1: Network, net2: Network)
    requires reg.Valid()
    requires PrecacheSucceeds(net1) && PrecacheSucceeds(net2)
    ensures Install(Install(reg, net1).reg, net2).reg.stores[PrecacheName].Keys
            == Install(reg, net1).reg.stores[PrecacheName].Keys
    ensures PrecacheName !in reg.stores ==>
              Install(reg, net1).reg.stores[PrecacheName].Keys == set u | u in PrecacheAssets
  {
    PrecacheSucceedsIsAddAll(net1);
    PrecacheSucceedsIsAddAll(net2);
    PrecacheKeysStable(reg, PrecacheAssets, net1, net2);
  }

  /** The names of caches that activation deletes, in registry order. */
  function StaleNames(names: seq<CacheName>): seq<CacheName> {
    Without(Without(names, PrecacheName), RuntimeName)
  }

  /** The activation trace deletes exactly the given names. */
  lemma DeletesThenClaim(stale: seq<CacheName>)
    ensures forall n :: DeleteCache(n) in DeleteEffects(stale) + [ClaimClients] <==> n in stale
  {
    var effects := DeleteEffects(stale) + [ClaimClients];
    forall n ensures DeleteCache(n) in effects <==> n in stale {
      if n in stale {
        var i :| 0 <= i < |stale| && stale[i] == n;
        assert effects[i] == DeleteCache(n);
      }
    }
  }

  /** Deleting the stale names leaves exactly the current ones, in order. */
  lemma StaleNamesLeaveCurrent(names: seq<CacheName>)
    ensures WithoutAll(names, StaleNames(names)) == KeepOnly(names, {PrecacheName, RuntimeName})
  {
    var stale := StaleNames(names);
    forall i | 0 <= i < |names|
      ensures names[i] in stale <==> names[i] !in {PrecacheName, RuntimeName}
    {
      assert names[i] in names;
    }
    WithoutAllIsKeepOnly(names, stale, {PrecacheName, RuntimeName});
  }

  /** The activate handler: delete every cache whose name is neither the
      precache nor the runtime cache, then claim the clients. */
  function Activate(reg: Registry): (t: Transition)
    requires reg.Valid()
    ensures t.reg.Valid()
    ensures forall n :: n in t.reg.stores ==> n == PrecacheName || n == RuntimeName
    ensures PrecacheName in t.reg.stores <==> PrecacheName in reg.stores
    ensures RuntimeName in t.reg.stores <==> RuntimeName in reg.stores
    ensures forall n :: n in t.reg.stores ==> t.reg.stores[n] == reg.stores[n]
    ensures t.reg.names == KeepOnly(reg.names, {PrecacheName, RuntimeName})
    ensures |t.effects| >= 1 && t.effects[|t.effects| - 1] == ClaimClients
    ensures forall i :: 0 <= i < |t.effects| - 1 ==> t.effects[i].DeleteCache?
    ensures forall n :: DeleteCache(n) in t.effects <==>
              n in reg.stores && n != PrecacheName && n != RuntimeName
  {
    var stale := StaleNames(reg.names);
    DeletesThenClaim(stale);
    StaleNamesLeaveCurrent(reg.names);
    Transition(DeleteEach(reg, stale), DeleteEffects(stale) + [ClaimClients])
  }

  /** A second activation changes nothing in the registry. */
  lemma {:induction false} ActivateIdempotent(reg: Registry)
    requires reg.Valid()
    ensures Activate(Activate(reg).reg).reg == Activate(reg).reg
  {
    var once := Activate(reg).reg;
    var stale := StaleNames(once.names);
    assert forall n :: n !in stale;
  }

  /** A failed install followed by activation: caches of other versions are
      gone and the precache keeps exactly what it held before the install, which
      is nothing when it did not exist; the runtime cache is kept. */
  lemma FailedInstallThenActivate(reg: Registry, net: Network)
    requires reg.Valid()
    requires !PrecacheSucceeds(net)
    ensures var after := Activate(Install(reg, net).reg).reg;
      && after.stores[PrecacheName] == StoreOf(reg, PrecacheName)
      && (PrecacheName !in reg.stores ==> after.stores[PrecacheName] == map[])
      && (forall n :: n in after.stores ==> n == PrecacheName || n == RuntimeName)
      && (RuntimeName in reg.stores ==> after.stores[RuntimeName] == reg.stores[RuntimeName])
  {
  }

  /** A successful install followed by activation leaves every manifest URL in
      the precache, whatever caches existed before. */
  lemma InstalledThenActivated(reg: Registry, net: Network)
    requires reg.Valid() && PrecacheSucceeds(net)
    ensures var after := Activate(Install(reg, net).reg).reg;
      && PrecacheName in after.stores
      && forall u :: u in PrecacheAssets ==> after.stores[PrecacheName][u] == net(u).response
  {
  }
}

=== FILE: messages.dfy ===
/** The message listener: messages posted by the page to the worker. */
module Messages {
  import opened Wrappers
  import opened Seqs
  import opened Host
  import opened CacheStorage
  import opened Config
  import opened Outcomes

  /** A message's payload: its `type` field and its `urls` field, each None
      when absent. A payload that is missing or falsy is modelled by None one
      level up, in `HandleMessage`. */
  datatype MessageData = MessageData(kind: Option<string>, urls: Option<seq<string>>)

  /** `{type: 'CACHE_CLEARED'}` posted to each client, in order. */
  function PostEach(clients: seq<ClientId>): (r: seq<Effect>)
    ensures |r| == |clients|
    ensures forall i :: 0 <= i < |r| ==> r[i].PostCacheCleared?
    ensures forall c :: multiset(r)[PostCacheCleared(c)] == multiset(clients)[c]
    decreases |clients|
  {
    if |clients| == 0 then []
    else
      assert clients == [clients[0]] + clients[1..];
      [PostCacheCleared(clients[0])] + PostEach(clients[1..])
  }

  /** `CLEAR_CACHE`: delete every cache, then notify every client the host
      reports as connected. */
  function ClearCache(reg: Registry, clients: seq<ClientId>): (t: Transition)
    requires reg.Valid()
    ensures t.reg == EmptyRegistry
    ensures |t.effects| == |reg.names| + |clients|
    ensures forall i :: 0 <= i < |reg.names| ==> t.effects[i] == DeleteCache(reg.names[i])
    ensures forall i :: |reg.names| <= i < |t.effects| ==> t.effects[i].PostCacheCleared?
    ensures forall c :: multiset(t.effects)[PostCacheCleared(c)] == multiset(clients)[c]
  {
    var cleared := DeleteEach(reg, reg.names);
    EmptyOrHasFirst(cleared.names);
    var deletes := DeleteEffects(reg.names);
    assert forall c :: PostCacheCleared(c) !in deletes;
    Transition(cleared, deletes + PostEach(clients))
  }

  /** With distinct clients, each one receives exactly one `CACHE_CLEARED`
      (which `ClearCache` places after every deletion). */
  lemma {:induction false} ClearCacheNotifiesEachClientOnce(reg: Registry, clients: seq<ClientId>, c: ClientId)
    requires reg.Valid() && NoDup(clients) && c in clients
    ensures multiset(ClearCache(reg, clients).effects)[PostCacheCleared(c)] == 1
  {
    NoDupCountsOne(clients, c);
  }

  /** The message listener. `SKIP_WAITING` only calls `skipWaiting()`;
      `CACHE_URLS` opens the runtime cache and `addAll`s the given URLs (none
      when `urls` is absent); `CLEAR_CACHE` clears everything and notifies the
      clients; anything else, or no payload, does nothing. */
  function HandleMessage(reg: Registry, data: Option<MessageData>, clients: seq<ClientId>, net: Network): (t: Transition)
    requires reg.Valid()
    ensures t.reg.Valid()
    ensures data.None? ==> t == Transition(reg, [])
    ensures data.Some? && data.value.kind == Some("SKIP_WAITING") ==>
              t.reg == reg && t.effects == [SkipWaiting]
    ensures data.Some? && data.value.kind == Some("CACHE_URLS") ==>
              t.reg.stores.Keys == reg.stores.Keys + {RuntimeName}
              && (forall n :: n in reg.stores && n != RuntimeName ==> t.reg.stores[n] == reg.stores[n])
              && SkipWaiting !in t.effects
    ensures data.Some? && data.value.kind == Some("CACHE_URLS") && data.value.urls.None? ==>
              SameEntries(reg, t.reg) && t.effects == []
    ensures data.Some? && data.value.kind == Some("CACHE_URLS") && data.value.urls.Some? ==>
              var urls := data.value.urls.value;
              && t.effects == FetchEach(urls)
              && (AddAllSucceeds(urls, net) ==>
                    forall u :: u in urls ==> u in t.reg.stores[RuntimeName] && t.reg.stores[RuntimeName][u] == net(u).response)
              && (!AddAllSucceeds(urls, net) ==> SameEntries(reg, t.reg))
    ensures data.Some? && data.value.kind == Some("CLEAR_CACHE") ==> t == ClearCache(reg, clients)
    ensures data.Some? && data.value.kind !in {Some("SKIP_WAITING"), Some("CACHE_URLS"), Some("CLEAR_CACHE")} ==>
              t == Transition(reg, [])
  {
    match data
    case None => Transition(reg, [])
    case Some(m) =>
      if m.kind == Some("SKIP_WAITING") then Transition(reg, [SkipWaiting])
      else if m.kind == Some("CACHE_URLS") then
        var o := Open(reg, RuntimeName);
        var b := AddAll(o, RuntimeName, m.urls.GetOr([]), net);
        Transition(b.reg, b.effects)
      else if m.kind == Some("CLEAR_CACHE") then ClearCache(reg, clients)
      else Transition(reg, [])
  }
}

=== FILE: outcomes.dfy ===
/** What a handler hands back to the host: the reply to a fetch event, and the
    registry and host effects an event leaves behind. */
module Outcomes {
  import opened Host
  import opened CacheStorage

  /** How a fetch event ends for the page: not intercepted; the listener threw
      before `respondWith` (the host then fetches as if unintercepted); answered
      with a response; or a network error (the `respondWith` promise rejected or
      resolved to no response). */
  datatype Reply = Passthrough | ListenerThrew | Respond(response: Response) | NetworkFailure

  /** A fetch event's outcome: the reply, the registry once the handler's writes
      (background ones included) are applied, and the host effects issued. */
  datatype FetchStep = FetchStep(reply: Reply, reg: Registry, effects: seq<Effect>)

  /** A lifecycle or message event's outcome: the registry afterwards and the
      host effects issued, in order. */
  datatype Transition = Transition(reg: Registry, effects: seq<Effect>)
}

=== FILE: router.dfy ===
/** The fetch listener's classification of a request, before any cache access. */
module Router {
  import opened Seqs
  import opened Host
  import opened Config

  /** Where a request goes: not intercepted; the listener throws (GET request with
      no `accept` header, whose `.includes` call fails on null); the font strategy;
      network-first; or cache-first. */
  datatype Route = NoIntercept | AcceptMissing | FontCache | NetworkFirstRoute | CacheFirstRoute

  /** The `accept` header asks for HTML. */
  ghost predicate WantsHtml(req: Request) {
    req.accept.Some? && exists i :: OccursAt(req.accept.value, "text/html", i)
  }

  /** The checks of the fetch listener, in the listener's order: the HTML check
      is reached only when no earlier check has decided. Only the method, the
      URL's protocol and origin, and the `accept` header decide. */
  function Classify(req: Request): (r: Route)
    ensures r == NoIntercept <==> req.verb != "GET" || req.protocol in ExcludedProtocols
    ensures r == FontCache <==>
              req.verb == "GET" && req.protocol !in ExcludedProtocols && req.origin in FontOrigins
    ensures r == AcceptMissing <==>
              req.verb == "GET" && req.protocol !in ExcludedProtocols && req.origin !in FontOrigins
              && req.accept.None?
    ensures r == NetworkFirstRoute <==>
              req.verb == "GET" && req.protocol !in ExcludedProtocols && req.origin !in FontOrigins
              && WantsHtml(req)
    ensures r == CacheFirstRoute <==>
              req.verb == "GET" && req.protocol !in ExcludedProtocols && req.origin !in FontOrigins
              && req.accept.Some? && !WantsHtml(req)
  {
    if req.verb != "GET" then NoIntercept
    else if req.protocol == "chrome-extension:" || req.protocol == "devtools:" then NoIntercept
    else if req.origin == "https://fonts.googleapis.com" || req.origin == "https://fonts.gstatic.com" then FontCache
    else if req.accept.None? then AcceptMissing
    else
      IncludesIff(req.accept.value, "text/html");
      if Includes(req.accept.value, "text/html") then NetworkFirstRoute else CacheFirstRoute
  }

  /** Requests that differ only in the URL's path and query (the `url` field
      beyond its protocol and origin) or in destination are routed alike. */
  lemma RouteIgnoresUrlAndDestination(req: Request, url: string, destination: string)
    ensures Classify(req.(url := url, destination := destination)) == Classify(req)
  {
  }
}

=== FILE: seqs.dfy ===
/** Sequence facts the cache model relies on: duplicate-freedom, removal of a
    value, and the substring test behind JavaScript's `String.prototype.includes`. */
module Seqs {

  /** No element occurs twice. */
  predicate NoDup<T(==)>(s: seq<T>)
    decreases |s|
  {
    |s| == 0 || (s[0] !in s[1..] && NoDup(s[1..]))
  }

  /** Appending a fresh element keeps a sequence duplicate-free. */
  lemma {:induction false} NoDupAppend<T>(s: seq<T>, x: T)
    requires NoDup(s) && x !in s
    ensures NoDup(s + [x])
    decreases |s|
  {
    if |s| > 0 {
      assert (s + [x])[1..] == s[1..] + [x];
      NoDupAppend(s[1..], x);
    }
  }

  /** A non-empty sequence has its first element as a member. */
  lemma EmptyOrHasFirst<T>(s: seq<T>)
    ensures |s| == 0 || s[0] in s
  {
  }

  /** Pairwise distinct elements make a duplicate-free sequence. */
  lemma {:induction false} DistinctNoDup<T>(s: seq<T>)
    requires forall i, j :: 0 <= i < j < |s| ==> s[i] != s[j]
    ensures NoDup(s)
    decreases |s|
  {
    if |s| > 0 {
      forall j | 0 <= j < |s[1..]| ensures s[1..][j] != s[0] {
        assert s[1..][j] == s[j + 1];
      }
      DistinctNoDup(s[1..]);
    }
  }

  /** A duplicate-free sequence holds each of its elements exactly once. */
  lemma {:induction false} NoDupCountsOne<T>(s: seq<T>, x: T)
    requires NoDup(s)
    ensures multiset(s)[x] == if x in s then 1 else 0
    decreases |s|
  {
    if |s| > 0 {
      assert s == [s[0]] + s[1..];
      NoDupCountsOne(s[1..], x);
    }
  }

  /** The index of the first occurrence of `x` in `s`. */
  function IndexOf<T(==)>(s: seq<T>, x: T): (k: nat)
    requires x in s
    ensures k < |s| && s[k] == x && x !in s[..k]
    decreases |s|
  {
    if s[0] == x then 0
    else
      var k := 1 + IndexOf(s[1..], x);
      assert s[..k] == [s[0]] + s[1..][..k - 1];
      k
  }

  /** `s` with every occurrence of `x` removed, the order of the rest kept. */
  function Without<T(==,!new)>(s: seq<T>, x: T): (r: seq<T>)
    ensures forall y :: y in r <==> y in s && y != x
    ensures NoDup(s) ==> NoDup(r)
    decreases |s|
  {
    if |s| == 0 then []
    else if s[0] == x then Without(s[1..], x)
    else [s[0]] + Without(s[1..], x)
  }

  /** `s` with every element of `xs` removed, the order of the rest kept. */
  function WithoutAll<T(==)>(s: seq<T>, xs: seq<T>): (r: seq<T>)
    decreases |s|
  {
    if |s| == 0 then []
    else if s[0] in xs then WithoutAll(s[1..], xs)
    else [s[0]] + WithoutAll(s[1..], xs)
  }

  /** The elements of `s` that lie in `keep`, in their order in `s`. */
  function KeepOnly<T>(s: seq<T>, keep: set<T>): (r: seq<T>)
    decreases |s|
  {
    if |s| == 0 then []
    else if s[0] in keep then [s[0]] + KeepOnly(s[1..], keep)
    else KeepOnly(s[1..], keep)
  }

  /** Removing nothing keeps the sequence. */
  lemma {:induction false} WithoutNone<T>(s: seq<T>)
    ensures WithoutAll(s, []) == s
    decreases |s|
  {
    if |s| > 0 {
      WithoutNone(s[1..]);
    }
  }

  /** Removing `x`, then every element of `xs`, removes every element of `[x] + xs`. */
  lemma {:induction false} WithoutThenWithoutAll<T(!new)>(s: seq<T>, x: T, xs: seq<T>)
    ensures WithoutAll(Without(s, x), xs) == WithoutAll(s, [x] + xs)
    decreases |s|
  {
    if |s| > 0 {
      WithoutThenWithoutAll(s[1..], x, xs);
      if s[0] != x {
        assert ([s[0]] + Without(s[1..], x))[1..] == Without(s[1..], x);
      }
    }
  }

  /** Removing exactly the elements outside `keep` keeps exactly those inside. */
  lemma {:induction false} WithoutAllIsKeepOnly<T>(s: seq<T>, xs: seq<T>, keep: set<T>)
    requires forall i :: 0 <= i < |s| ==> (s[i] in xs <==> s[i] !in keep)
    ensures WithoutAll(s, xs) == KeepOnly(s, keep)
    decreases |s|
  {
    if |s| > 0 {
      assert s[0] in xs <==> s[0] !in keep;
      forall i | 0 <= i < |s[1..]| ensures s[1..][i] in xs <==> s[1..][i] !in keep {
        assert s[1..][i] == s[i + 1];
      }
      WithoutAllIsKeepOnly(s[1..], xs, keep);
    }
  }

  /** `sub` occurs in `s` starting at index `i`. */
  predicate OccursAt(s: string, sub: string, i: int) {
    0 <= i && i + |sub| <= |s| && s[i..i + |sub|] == sub
  }

  /** `s.includes(sub)`: scans `s` left to right for an occurrence of `sub`. */
  function Includes(s: string, sub: string): bool
    decreases |s|
  {
    if |sub| > |s| then false
    else if s[..|sub|] == sub then true
    else Includes(s[1..], sub)
  }

  /** The scan finds `sub` exactly when `sub` occurs somewhere in `s`. */
  lemma {:induction false} IncludesIff(s: string, sub: string)
    ensures Includes(s, sub) <==> exists i :: OccursAt(s, sub, i)
    decreases |s|
  {
    if |sub| > |s| {
    } else if s[..|sub|] == sub {
      assert OccursAt(s, sub, 0);
    } else {
      IncludesIff(s[1..], sub);
      if Includes(s[1..], sub) {
        var j :| OccursAt(s[1..], sub, j);
        assert s[1..][j..j + |sub|] == s[j + 1..j + 1 + |sub|];
        assert OccursAt(s, sub, j + 1);
      } else {
        forall i ensures !OccursAt(s, sub, i) {
          if 1 <= i && i + |sub| <= |s| {
            var k := i - 1;
            assert s[1..][k..k + |sub|] == s[k + 1..k + 1 + |sub|];
            assert !OccursAt(s[1..], sub, k);
          }
        }
      }
    }
  }
}

=== FILE: strategies.dfy ===
/** The three fetch strategies. Each is a transition from the registry, the
    request and the outcome its one network fetch would have, to the reply, the
    registry with every write applied (fire-and-forget ones included) and the
    fetches issued. */
module Strategies {
  import opened Seqs
  import opened Host
  import opened CacheStorage
  import opened Config
  import opened Outcomes

  /** Font strategy: answer from the runtime cache alone; on a miss fetch, and
      store the response in the runtime cache only when its status is 200.
      Opening the runtime cache creates it, empty, if it did not exist. */
  function FontStrategy(reg: Registry, req: Request, net: FetchResult): (s: FetchStep)
    requires reg.Valid()
    ensures s.reg.Valid()
    ensures req.url in StoreOf(reg, RuntimeName) ==>
              s == FetchStep(Respond(reg.stores[RuntimeName][req.url]), reg, [])
    ensures req.url !in StoreOf(reg, RuntimeName) ==> s.effects == [Fetch(req.url)]
    ensures req.url !in StoreOf(reg, RuntimeName) && net.NetworkError? ==>
              s.reply == NetworkFailure && SameEntries(reg, s.reg)
    ensures req.url !in StoreOf(reg, RuntimeName) && net.Fetched? ==>
              s.reply == Respond(net.response)
    ensures req.url !in StoreOf(reg, RuntimeName) && net.Fetched? && net.response.status == 200 ==>
              WroteOne(reg, s.reg, RuntimeName, req.url, net.response)
    ensures req.url !in StoreOf(reg, RuntimeName) && net.Fetched? && net.response.status != 200 ==>
              SameEntries(reg, s.reg)
    ensures s.reg.stores.Keys <= reg.stores.Keys + {RuntimeName}
    ensures req.url !in StoreOf(reg, RuntimeName) ==> s.reg.stores.Keys == reg.stores.Keys + {RuntimeName}
  {
    var cache := Open(reg, RuntimeName);
    if req.url in cache.stores[RuntimeName] then
      FetchStep(Respond(cache.stores[RuntimeName][req.url]), cache, [])
    else
      match net
      case NetworkError => FetchStep(NetworkFailure, cache, [Fetch(req.url)])
      case Fetched(resp) =>
        if resp.status == 200 then FetchStep(Respond(resp), Put(cache, RuntimeName, req.url, resp), [Fetch(req.url)])
        else FetchStep(Respond(resp), cache, [Fetch(req.url)])
  }

  /** Network-first for HTML: a live response is returned whatever its status,
      and written into the precache only when its status is 200. Offline, the
      reply is the request's own cached entry, else the root document's, else a
      failed navigation. */
  function NetworkFirst(reg: Registry, req: Request, net: FetchResult): (s: FetchStep)
    requires reg.Valid()
    ensures s.reg.Valid()
    ensures s.effects == [Fetch(req.url)]
    ensures net.Fetched? ==> s.reply == Respond(net.response)
    ensures net.Fetched? && net.response.status == 200 ==>
              WroteOne(reg, s.reg, PrecacheName, req.url, net.response)
    ensures net.Fetched? && net.response.status != 200 ==> s.reg == reg
    ensures net.NetworkError? ==> s.reg == reg
    ensures net.NetworkError? && Holds(reg, req.url) ==>
              s.reply.Respond? && IsFirstCached(reg, req.url, s.reply.response)
    ensures net.NetworkError? && !Holds(reg, req.url) && Holds(reg, IndexUrl) ==>
              s.reply.Respond? && IsFirstCached(reg, IndexUrl, s.reply.response)
    ensures net.NetworkError? && !Holds(reg, req.url) && !Holds(reg, IndexUrl) ==>
              s.reply == NetworkFailure
  {
    match net
    case Fetched(resp) =>
      if resp.status == 200 then FetchStep(Respond(resp), Put(reg, PrecacheName, req.url, resp), [Fetch(req.url)])
      else FetchStep(Respond(resp), reg, [Fetch(req.url)])
    case NetworkError =>
      MatchIsFirst(reg, req.url);
      MatchIsFirst(reg, IndexUrl);
      var reply :=
        match Match(reg, req.url)
        case Some(cached) => Respond(cached)
        case None =>
          match Match(reg, IndexUrl)
          case Some(index) => Respond(index)
          case None => NetworkFailure;
      FetchStep(reply, reg, [Fetch(req.url)])
  }

  /** `fetchAndCache`: the background refresh. Only a status-200 response is
      written, into the runtime cache, with no check of the response type; a
      failed fetch is swallowed and changes nothing. */
  function FetchAndCache(reg: Registry, url: string, net: FetchResult): (r: Registry)
    requires reg.Valid()
    ensures r.Valid()
    ensures net.Fetched? && net.response.status == 200 ==> WroteOne(reg, r, RuntimeName, url, net.response)
    ensures !(net.Fetched? && net.response.status == 200) ==> r == reg
  {
    match net
    case Fetched(resp) => if resp.status == 200 then Put(reg, RuntimeName, url, resp) else reg
    case NetworkError => reg
  }

  /** The body of the placeholder image returned offline: an SVG showing "Offline". */
  const PlaceholderSvgHead: string :=
    "<svg xmlns=\"http://www.w3.org/2000/svg\" width=\"200\" height=\"200\"><text x=\"50%\" y=\"50%\" text-anchor=\"middle\" fill=\"#999\">"
  const PlaceholderSvgTail: string := "</text></svg>"

  /** The response built for a failed image fetch: default status 200 and type
      `default`, with an SVG body. */
  const OfflinePlaceholder: Response :=
    Response(200, Default, "image/svg+xml", PlaceholderSvgHead + "Offline" + PlaceholderSvgTail)

  /** The placeholder is an SVG image whose body contains "Offline". */
  lemma OfflinePlaceholderIsSvg()
    ensures OfflinePlaceholder.contentType == "image/svg+xml"
    ensures Includes(OfflinePlaceholder.body, "Offline")
  {
    var body := OfflinePlaceholder.body;
    var k := |PlaceholderSvgHead|;
    assert body[k..k + |"Offline"|] == "Offline";
    assert OccursAt(body, "Offline", k);
    IncludesIff(body, "Offline");
  }

  /** Cache-first for everything else. On a hit the cached response is returned
      as is and exactly one background refresh is issued. On a miss the network
      response is returned, and stored in the runtime cache only when its
      status is 200 and its type is not `error`; a failed fetch yields the
      offline placeholder for images and a network error otherwise. */
  function CacheFirst(reg: Registry, req: Request, net: FetchResult): (s: FetchStep)
    requires reg.Valid()
    ensures s.reg.Valid()
    ensures s.effects == [Fetch(req.url)]
    ensures Holds(reg, req.url) ==>
              s.reply.Respond? && IsFirstCached(reg, req.url, s.reply.response)
    ensures Holds(reg, req.url) && net.Fetched? && net.response.status == 200 ==>
              WroteOne(reg, s.reg, RuntimeName, req.url, net.response)
    ensures Holds(reg, req.url) && !(net.Fetched? && net.response.status == 200) ==> s.reg == reg
    ensures !Holds(reg, req.url) && net.Fetched? ==> s.reply == Respond(net.response)
    ensures !Holds(reg, req.url) && net.Fetched? && net.response.status == 200 && net.response.kind != Error ==>
              WroteOne(reg, s.reg, RuntimeName, req.url, net.response)
    ensures !Holds(reg, req.url) && net.Fetched? && (net.response.status != 200 || net.response.kind == Error) ==>
              s.reg == reg
    ensures !Holds(reg, req.url) && net.NetworkError? ==>
              s.reg == reg && s.reply == (if req.destination == "image" then Respond(OfflinePlaceholder) else NetworkFailure)
  {
    MatchIsFirst(reg, req.url);
    match Match(reg, req.url)
    case Some(cached) => FetchStep(Respond(cached), FetchAndCache(reg, req.url, net), [Fetch(req.url)])
    case None =>
      match net
      case Fetched(resp) =>
        if resp.status != 200 || resp.kind == Error then FetchStep(Respond(resp), reg, [Fetch(req.url)])
        else FetchStep(Respond(resp), Put(reg, RuntimeName, req.url, resp), [Fetch(req.url)])
      case NetworkError =>
        if req.destination == "image" then FetchStep(Respond(OfflinePlaceholder), reg, [Fetch(req.url)])
        else FetchStep(NetworkFailure, reg, [Fetch(req.url)])
  }
}

=== FILE: wrappers.dfy ===
/** The optional value used for cache lookups and optional request fields. */
module Wrappers {

  datatype Option<+T> = None | Some(value: T) {

    /** Returns the value in Some, or `default` when None (JavaScript's `x || default`). */
    function GetOr(default: T): T {
      match this
      case Some(v) => v
      case None => default
    }
  }
}
